=== FILE: README.md ===
# Pension tracker: UTM selection, pension arithmetic and backup housekeeping

This project is a Dafny model of the decision logic in a child-support ("pensión
alimenticia") payment tracker for Chilean users. The monthly amount owed is derived
from the UTM (*Unidad Tributaria Mensual*), a monetary unit the Chilean government
publishes each month. The model covers three browser scripts:

- **`public/js/utm-api.js`** is the client of the `mindicador.cl` UTM endpoint.
  `obtenerUTMPorMes` chooses the UTM for a `YYYY-MM` key from the returned series. It
  tries, in order: an exact month match; the latest-dated item of the same year; the
  head of the series; and finally the default 68310. The file also holds
  `formatearFechaParaMes` (date to month key), two projections of the series, and the
  merge of fetched values into the application's month map. Each request to the
  endpoint is an input value, `Fetch = Fetched(serie) | FetchFailed`.
- **`public/js/app.js`** holds the arithmetic:
  - the monthly amount `round(utm × 3.51360)`;
  - the month-map lookup that falls back to 68310;
  - `calcularResumen`, which counts and sums payments and charges each *distinct*
    month once.
- **`public/js/backup-system.js`** handles backups:
  - the structural check `validarBackup`;
  - the `.json` file-name guard and the storage writes of an import;
  - pruning that keeps the five lexicographically greatest automatic-backup keys;
  - the statistics fold.

  Storage is a `map` from keys to stored values. Parsed JSON is the datatype `Json`.

Modules:

| module | file | contents |
|---|---|---|
| `Wrappers` | wrappers.dfy | `Option` |
| `LexOrder` | lex_order.dfy | the string order of `Array.prototype.sort()`; an insertion sort over it |
| `MonthKeys` | month_keys.dfy | `formatearFechaParaMes`; `split('-')`; decimal digits; reading a key back |
| `UtmApi` | utm_api.dfy | the selection policy, the projections, the merge |
| `PensionApp` | pension.dfy | monthly amount, lookup with default, `calcularResumen` |
| `Backup` | backup.dfy | `validarBackup`, import, pruning, statistics |

The scripts have no cache with a staleness window, no fallback to other data
providers, no plausibility range for a UTM value, no UTM table embedded in the code
and no user-set pension factor. Fetched values are only merged into the application's
month map (`UtmApi.AutoUpdate`), which the scripts save under `pension_utm` and which
`obtenerValorUTM` reads (`PensionApp.UtmOfMonth`); nothing expires or checks those
values. The constants are the code's: `FACTOR_UTM = 3.51360` and `UTM_INICIAL = 68310`.

Money and time values are unbounded integers. JavaScript's `Math.round(v * 3.5136)` is
modelled as exact rational arithmetic rounded half up, not as a binary floating-point
product.

## Model

| member | source | states |
|---|---|---|
| `MonthKeys.MonthKey` | public/js/utm-api.js:222-226 | `formatearFechaParaMes`: the year, a dash, and the 1-based month padded to two digits; no contract of its own, its shape and reading back are stated by `MonthKeyShape`, `MonthKeyRoundTrip` and `MonthKeyInjective` |
| `MonthKeys.MonthKeyShape` | public/js/utm-api.js:222-226 | the key is the decimal year, then a dash, then exactly two digits whose value is the 1-based month |
| `MonthKeys.MonthKeyRoundTrip` | public/js/utm-api.js:222-226 | reading a formatted key back (split on '-', parse both pieces, subtract 1 from the month as `formatearMes` does) gives the year and month it was built from |
| `MonthKeys.ReadMonthKey` | public/js/app.js:28-29 | the `split('-')` and numeric reading of `formatearMes`; no contract of its own, `MonthKeyRoundTrip` states that it inverts `MonthKey` |
| `MonthKeys.MonthKeyInjective` | public/js/utm-api.js:222-226 | two dates with non-negative years share a key exactly when they share year and month |
| `MonthKeys.YearPartOfMonthKey` | public/js/utm-api.js:97-103 | `split('-')[0]` of a key is the rendered year, so two keys share a year part exactly when their years agree |
| `MonthKeys.ParseNatToString` | public/js/utm-api.js:224-226 | the decimal rendering of a natural number reads back as the same number |
| `MonthKeys.PaddedMonth` | public/js/utm-api.js:225 | a 1-based month number, padded with `padStart(2, '0')`, is exactly two digits that read back as the number |
| `UtmApi.CurrentUtm` | public/js/utm-api.js:10-35 | `obtenerUTMActual`: the head of the series, absent when the request fails or `serie[0]` does not exist; no contract of its own, its use is stated by `HeadWhenNoYear` |
| `UtmApi.AllValues` | public/js/utm-api.js:41-68 | a failed request propagates as failure; otherwise the projection keeps the series' length and order, and each item's value and date come with that item's month key |
| `UtmApi.LastMonthValues` | public/js/utm-api.js:132-155 | a failed request propagates as failure; otherwise the result holds the first min(30, n) items, in order, with their values, dates and month keys |
| `UtmApi.LastMonthIsPrefixOfAll` | public/js/utm-api.js:145-149 | the recent-values projection is a prefix of the full projection, of length min(30, n) |
| `UtmApi.FindMonth` | public/js/utm-api.js:83-89 | the search finds nothing exactly when no item has the key; otherwise it finds a position with the key and no earlier position has it |
| `UtmApi.OfYear` | public/js/utm-api.js:100-103 | the filter keeps exactly the items whose key has the requested year part |
| `UtmApi.OfYearAppend` | public/js/utm-api.js:99-102 | the filter works item by item: filtering two parts joined gives the two filtered parts joined, so it keeps series order and repeats |
| `UtmApi.OfYearPositions` | public/js/utm-api.js:99-102 | the filtered list is the series' items at strictly increasing positions, and every item of the year is at one of them |
| `UtmApi.LatestIndex` | public/js/utm-api.js:106-108 | the head after the stable descending sort has the greatest time value, and no earlier item has that time value |
| `UtmApi.UtmForMonth` | public/js/utm-api.js:75-126 | `obtenerUTMPorMes`; no contract of its own, its answer in each case is stated by `DefaultOnFailure`, `ExactMatchWins`, `YearWinner`/`LatestOfYearWins`, `HeadWhenNoYear` and `SameSeriesAnswer` |
| `UtmApi.ExactMatchWins` | public/js/utm-api.js:83-94 | if some item has the requested key, the answer is the value of the first such item in series order |
| `UtmApi.LatestOfYearWins` | public/js/utm-api.js:97-112 | if no item has the key but some share its year, the answer is the value of an item of that year that no other item of the year postdates, and that every earlier item of the year predates (the stable sort keeps the first of equal dates) |
| `UtmApi.YearWinner` | public/js/utm-api.js:97-112 | names that item: one of the requested year whose value is the answer, which no item of the year postdates, and which every earlier item of the year strictly predates |
| `UtmApi.LaterMonthOfSameYearAnswers` | public/js/utm-api.js:105-111 | asking for March 2025 of a series holding only June 2025 answers June's value: the year step does not look for the nearest earlier month |
| `UtmApi.HeadWhenNoYear` | public/js/utm-api.js:114-117 | with nothing of the requested year, the answer is `serie[0].valor` of the second request, or 68310 when that request fails or returns an empty series |
| `UtmApi.DefaultOnFailure` | public/js/utm-api.js:119-125 | a failed request for the series answers the default 68310 |
| `UtmApi.SameSeriesAnswer` | public/js/utm-api.js:75-126 | when both requests return the same series, an empty series answers 68310, and a non-empty one answers the value of one of its items |
| `UtmApi.InYearMeansSameCalendarYear` | public/js/utm-api.js:97-103 | for a well-formed request key, an item is "of the requested year" exactly when its calendar year equals the key's year (a negative year has an empty year part) |
| `UtmApi.MergeValues` | public/js/utm-api.js:198-200 | the `valoresUTM.forEach` that writes each value under its key; no contract of its own, stated by `MergeKeys`, `MergeUntouched` and `MergeLastWins` |
| `UtmApi.MergeKeys` | public/js/utm-api.js:198-200 | after the loop, the map's keys are the old keys plus the keys of the values, and nothing else |
| `UtmApi.MergeUntouched` | public/js/utm-api.js:198-200 | a key that no value carries keeps its old value |
| `UtmApi.MergeLastWins` | public/js/utm-api.js:198-200 | when no later value shares its key, a value is what its key ends up holding: the last write wins |
| `UtmApi.AutoUpdate` | public/js/utm-api.js:190-215 | the update answers true exactly when the request succeeded; on failure, or without the application object, the map is unchanged; on success the map gains exactly the series' keys |
| `UtmApi.AutoUpdateLastWins` | public/js/utm-api.js:194-200 | after a successful update, each month of the series holds the value of its last item, and all other keys are untouched |
| `PensionApp.MonthlyPension` | public/js/app.js:82-84 | the amount is the integer r with r ≤ utm × 3.5136 + 1/2 < r + 1, which is `Math.round` of the exact product |
| `PensionApp.MonthlyPensionMonotone` | public/js/app.js:82-84 | a larger UTM never gives a smaller monthly amount |
| `PensionApp.MonthlyPensionOfInitialUtm` | public/js/app.js:8-12 | the default UTM 68310 gives a monthly amount of 240014 |
| `PensionApp.UtmOfMonth` | public/js/app.js:86-88 | the lookup returns the stored value when the month is present and its value is non-zero, and 68310 otherwise; it never returns 0 |
| `PensionApp.TotalPaid` | public/js/app.js:92 | the `reduce` adding each payment's `monto` from 0; no contract of its own, `TotalPaidAppend` states that it adds up over concatenation |
| `PensionApp.TotalPaidAppend` | public/js/app.js:92 | the paid total of two lists joined is the sum of their paid totals |
| `PensionApp.Dedup` | public/js/app.js:96 | `[...new Set(months)]` holds the same months as its input, each exactly once |
| `PensionApp.LatestFecha` | public/js/app.js:105-110 | the most recent payment date is the date of some payment, and no payment is later |
| `PensionApp.CalcularResumen` | public/js/app.js:90-119 | the summary holds: the payment count; the paid sum; the amount owed over distinct months; the difference paid minus owed; and, with no payments, zeros and '-' (None), otherwise the latest payment date |
| `PensionApp.TotalRequired` | public/js/app.js:95-101 | the owed amounts of the distinct paid months, added up; no contract of its own, stated by `RequiredIgnoresRepeatedMonth`, `RequiredAddsNewMonth` and `RequiredDependsOnlyOnMonthSet` |
| `PensionApp.RequiredIgnoresRepeatedMonth` | public/js/app.js:94-101 | adding a payment for a month that already has one leaves the required total unchanged |
| `PensionApp.RequiredAddsNewMonth` | public/js/app.js:94-101 | adding a payment for a new month raises the required total by exactly that month's monthly amount |
| `PensionApp.RequiredDependsOnlyOnMonthSet` | public/js/app.js:96-101 | two payment lists with the same set of months owe the same total, whatever their order, amounts or repeats |
| `LexOrder.BelowTotal` | public/js/backup-system.js:184 | any two different strings are ordered one way or the other by the default sort order |
| `LexOrder.BelowTransitive` | public/js/backup-system.js:184 | the default sort order on strings is transitive |
| `LexOrder.Sort` | public/js/backup-system.js:184 | sorting a repeat-free list of keys gives a strictly ascending list with the same elements and length |
| `Backup.AllPagosOk` | public/js/backup-system.js:136-140 | the loop accepts exactly when every payment is an object with a truthy `id`, `fecha` and `monto` |
| `Backup.ValidarBackup` | public/js/backup-system.js:124-146 | a backup is accepted exactly when: it is an object; its `datos` is an object; `datos.pagos` is an array; and every payment is well formed. So null, non-objects, arrays and a missing `datos` are refused, and an empty `pagos` is accepted |
| `Backup.ZeroMontoRejected` | public/js/backup-system.js:136-140 | a backup with a payment whose `monto` is 0 is refused, because 0 is falsy |
| `Backup.AcceptsFileName` | public/js/backup-system.js:67-70 | an accepted name ends in exactly `.json` |
| `Backup.JsonNamesAccepted` | public/js/backup-system.js:67 | every name of the form stem + `.json` is accepted |
| `Backup.UpperCaseSuffixRejected` | public/js/backup-system.js:67 | the comparison is case-sensitive: `backup.JSON` is refused |
| `Backup.ImportarDatos` | public/js/backup-system.js:60-121 | no file gives no change, and a non-`.json` name is refused. An import happens exactly when the name is `.json`, the content parses, passes validation, and the user confirms. It then writes the payments and counts them, first copies the previous truthy payments under `pension_backup_auto_<now>`, writes `datos.valoresUTM` under `pension_utm` (the text `undefined` when it is absent), and leaves every other key untouched, including an existing `pension_backup_auto_<now>` when no copy is made; no other key appears |
| `Backup.FilterAutoBackup` | public/js/backup-system.js:180 | the filter keeps exactly the keys starting with `pension_backup_auto_`, without repeats |
| `Backup.PruneAutoBackups` | public/js/backup-system.js:177-196 | keys without the prefix are untouched; nothing is added or changed; with five or fewer prefixed keys the storage is unchanged |
| `Backup.PruneKeepsFiveGreatest` | public/js/backup-system.js:182-189 | with more than five prefixed keys, exactly five survive, and every removed key sorts before every surviving one |
| `Backup.PruneSurvivalRule` | public/js/backup-system.js:182-189 | a prefixed key survives exactly when fewer than five prefixed keys sort after it |
| `Backup.SumMontos` | public/js/backup-system.js:158 | the `reduce` with `pago.monto \|\| 0`; no contract of its own, `SumMontosIsSum` states that it is the plain sum when every amount is a number or absent |
| `Backup.EstadisticasBackup` | public/js/backup-system.js:149-174 | the statistics are null exactly when the stored payments do not parse, are not an array, are empty, contain a null payment, or contain a payment whose truthy `monto` or whose `fecha` cannot be converted to a primitive (an object with its own `toString` field, or an array holding one). Otherwise they count the payments, and when every amount is a number or absent, `montoTotal` is the sum with absent or falsy amounts counting 0 |
| `Backup.ToStringAmountGivesNull` | public/js/backup-system.js:149-174 | a payment whose `monto` is `{"toString": 0}` passes `validarBackup` but makes the statistics null, because the `+` throws and the `catch` answers null |
| `Backup.SumMontosIsSum` | public/js/backup-system.js:158 | the left-to-right `reduce` with `pago.monto \|\| 0` equals the plain sum of the amounts when every amount is a number or absent |

## Left out

- Network access is not modelled: `fetch`, `response.ok` and `response.json()` are replaced by the `Fetch` input. The second request inside `obtenerUTMPorMes`, made through `obtenerUTMActual`, is a second `Fetch` parameter.
- `obtenerTodosLosIndicadores` is left out. It only copies fields of a different endpoint's response, so there is no decision logic to model.
- `verificarConexionAPI`, `probarBusquedaPorMes`, `mostrarAlerta`, `actualizarNavegacionActiva`, `inicializarPaginaInicio`, `inicializarCalculadora`, `inicializarSistemaBackup`, `confirm`, `FileReader`, Blob downloads and the `setTimeout` reload are left out. They are user interface and I/O. The user's answer to `confirm` and the parsed file content are inputs of `ImportarDatos`.
- The random debug logging in `formatearFechaParaMes` is left out, because it has no effect on the result.
- Dates are not parsed. A series date is given already decomposed as `getFullYear()`, `getMonth()` and a time value in the local time zone, and a payment date is its time value. Time zones are left out. So are invalid dates, for which the JavaScript key would be `NaN-NaN`.
- `formatearPesos`, `formatearFecha` and `formatearMes` are opaque locale-formatting calls, so they are left out. `ultimoPago` is therefore the latest date value rather than its formatted text. `ReadMonthKey` models only the split and the numeric reading in `formatearMes`, and only for digit-only pieces; JavaScript's `Number()` coercion of other text is left out.
- `localStorage` reads and writes are not modelled: `guardarPagos`, `cargarPagos`, `guardarValoresUTM` and `cargarValoresUTM`. Storage is an explicit map, and `JSON.stringify`/`JSON.parse` are treated as exact inverses. The application's month map holds integers.
- The stale alias `window.PensionApp.valoresUTM` (app.js:213 versus app.js:72) is left out, because it is global-state plumbing. `AutoUpdate` merges into the map it is given.
- `calcularResumen` sorts the global payment list in place; that side effect is not modelled. The sums it returns do not depend on order.
- `exportarDatos` is left out, because it builds a downloadable file. Its `estadisticas.montoTotal` is the same fold as `SumMontos`.
- The `ultimoPago`, `primerPago` and `rangoFechas` fields of `obtenerEstadisticasBackup` are left out. They need date parsing and locale formatting.
- JSON numbers are integers. Fractional amounts are not modelled, and `NaN` cannot come out of `JSON.parse`.
- `Backup.EstadisticasBackup`: `montoTotal` is pinned down only when every amount is a number or absent. A truthy string, array or object amount that converts to a primitive turns the JavaScript sum into string concatenation, which the model records only as `Concatenated`, without its text. Amounts whose conversion throws are modelled: they make the statistics null.
- `PensionApp.CalcularResumen`: a payment's `monto` is an integer. `calcularResumen` adds `pago.monto` without `|| 0`, so a payment without an amount would make `montoTotalPagado` `NaN`, and a string amount, which `validarBackup` lets through because it only asks for a truthy `monto`, would turn the sum into string concatenation. Neither result is modelled: `NaN` has no integer counterpart, and the form that creates payments is not part of this model. `Backup.EstadisticasBackup` records the same effect for the statistics fold as `Concatenated`.
- `LexOrder.Sort` compares Dafny characters, which are Unicode code points. `Array.prototype.sort()` compares UTF-16 code units. The two agree on keys inside the Basic Multilingual Plane, which includes every key these scripts create.
- `PensionApp.MonthlyPension`: the rounding is exact, so floating-point products that land just beside a .5 boundary in binary arithmetic are not modelled.
- `public/sw.js` is left out. It is a thin wrapper over the Service Worker cache and fetch APIs.
- `server.js` is left out. It is HTTP static file serving.

=== FILE: backup.dfy ===
/**
 * The backup housekeeping of backup-system.js: the structural check a backup file
 * must pass, the file-name guard and the storage writes of an import, the pruning
 * of automatic backups, and the statistics shown for the stored payments. Storage is
 * a map from keys to stored values; parsed JSON is the datatype `Json`.
 */
module Backup {
  import opened Wrappers
  import opened LexOrder

  /** A value produced by `JSON.parse`; numbers are whole pesos. */
  datatype Json =
    | JNull
    | JBool(b: bool)
    | JNum(n: int)
    | JStr(s: string)
    | JArr(items: seq<Json>)
    | JObj(fields: map<string, Json>)

  /** JavaScript truthiness: `null`, `false`, `0` and `""` are falsy, arrays and objects are truthy. */
  predicate Truthy(j: Json) {
    match j
    case JNull => false
    case JBool(b) => b
    case JNum(n) => n != 0
    case JStr(s) => s != ""
    case JArr(_) => true
    case JObj(_) => true
  }

  /**
   * The property read `j.k` on a value that is not `null`: an object's own field, and
   * `undefined` (here `None`) for a missing field or any other kind of value.
   */
  function Prop(j: Json, k: string): Option<Json>
    requires !j.JNull?
  {
    if j.JObj? && k in j.fields then Some(j.fields[k]) else None
  }

  predicate TruthyProp(j: Json, k: string)
    requires !j.JNull?
  {
    Prop(j, k).Some? && Truthy(Prop(j, k).value)
  }

  // ---------------------------------------------------------------------------
  // validarBackup

  /** A payment as the validator wants it: an object whose `id`, `fecha` and `monto` are present and truthy. */
  ghost predicate WellFormedPago(p: Json) {
    && p.JObj?
    && "id" in p.fields && Truthy(p.fields["id"])
    && "fecha" in p.fields && Truthy(p.fields["fecha"])
    && "monto" in p.fields && Truthy(p.fields["monto"])
  }

  /**
   * The test inside the `for` loop of `validarBackup`. Reading a field of `null`
   * throws, and the surrounding `catch` turns that into `false`.
   */
  function PagoOk(pago: Json): bool {
    if pago.JNull? then false
    else TruthyProp(pago, "id") && TruthyProp(pago, "fecha") && TruthyProp(pago, "monto")
  }

  /** The `for` loop over `datos.pagos` in `validarBackup`: stops at the first payment that fails. */
  function AllPagosOk(pagos: seq<Json>): (ok: bool)
    ensures ok <==> forall i :: 0 <= i < |pagos| ==> WellFormedPago(pagos[i])
    decreases |pagos|
  {
    if |pagos| == 0 then true
    else if !PagoOk(pagos[0]) then false
    else AllPagosOk(pagos[1..])
  }

  /** The shape `validarBackup` accepts, stated directly on the parsed value. */
  ghost predicate WellFormedBackup(backup: Json) {
    && backup.JObj?
    && "datos" in backup.fields
    && backup.fields["datos"].JObj?
    && "pagos" in backup.fields["datos"].fields
    && backup.fields["datos"].fields["pagos"].JArr?
    && forall i :: 0 <= i < |backup.fields["datos"].fields["pagos"].items| ==>
         WellFormedPago(backup.fields["datos"].fields["pagos"].items[i])
  }

  /** `validarBackup`, step by step as the source performs it. */
  function ValidarBackup(backup: Json): (ok: bool)
    ensures ok <==> WellFormedBackup(backup)
  {
    if !Truthy(backup) || !(backup.JObj? || backup.JArr?) then false
    else
      var datos := Prop(backup, "datos");
      if datos.None? || !Truthy(datos.value) then false
      else
        var pagos := Prop(datos.value, "pagos");
        if pagos.None? || !pagos.value.JArr? then false
        else AllPagosOk(pagos.value.items)
  }

  /** The payments of a backup that passed validation. */
  function PagosOf(backup: Json): seq<Json>
    requires WellFormedBackup(backup)
  {
    backup.fields["datos"].fields["pagos"].items
  }

  /** A payment whose amount is 0 is falsy in `!pago.monto`, so a backup holding one is refused. */
  lemma ZeroMontoRejected(id: string, fecha: string)
    requires id != "" && fecha != ""
    ensures !ValidarBackup(JObj(map["datos" := JObj(map["pagos" := JArr([
      JObj(map["id" := JStr(id), "fecha" := JStr(fecha), "monto" := JNum(0)])])])]))
  {
    var p := JObj(map["id" := JStr(id), "fecha" := JStr(fecha), "monto" := JNum(0)]);
    assert !WellFormedPago(p);
    assert JArr([p]).items[0] == p;
  }

  // ---------------------------------------------------------------------------
  // importarDatos

  const JsonSuffix: string := ".json"

  /** `archivo.name.endsWith('.json')`, compared character by character (so `.JSON` is refused). */
  function AcceptsFileName(name: string): (ok: bool)
    ensures ok ==> |JsonSuffix| <= |name| && name == name[..|name| - |JsonSuffix|] + JsonSuffix
  {
    |JsonSuffix| <= |name| && name[|name| - |JsonSuffix|..] == JsonSuffix
  }

  /** Every name made of some stem followed by `.json` is accepted, the bare `.json` included. */
  lemma JsonNamesAccepted(stem: string)
    ensures AcceptsFileName(stem + JsonSuffix)
  {
    assert (stem + JsonSuffix)[|stem|..] == JsonSuffix;
  }

  lemma UpperCaseSuffixRejected()
    ensures !AcceptsFileName("backup.JSON")
  {
    assert "backup.JSON"[6..] != JsonSuffix by {
      assert "backup.JSON"[6..][1] == 'J';
    }
  }

  /** A value as `localStorage` holds it: the JSON text of a value, or other raw text. */
  datatype Stored = Encoded(value: Json) | Raw(text: string)

  /** The text `getItem` returns is truthy unless it is empty; a JSON encoding never is. */
  predicate StoredTruthy(s: Stored) {
    match s
    case Encoded(_) => true
    case Raw(t) => t != ""
  }

  const PagosKey: string := "pension_pagos"
  const UtmKey: string := "pension_utm"
  const AutoBackupPrefix: string := "pension_backup_auto_"

  /** `if (backupActual)`: there are stored payments, and their text is not empty. */
  predicate SavesOldPagos(storage: map<string, Stored>) {
    PagosKey in storage && StoredTruthy(storage[PagosKey])
  }

  /** The keys a confirmed import writes: the payments, the UTM map, and the copy of the old payments if any. */
  function ImportWrites(storage: map<string, Stored>, now: string): set<string> {
    {PagosKey, UtmKey} + if SavesOldPagos(storage) then {AutoBackupPrefix + now} else {}
  }

  /** How `importarDatos` ends. */
  datatype ImportOutcome =
    | NoFile
    | NotJsonFile
    | Unreadable
    | InvalidBackup
    | Declined
    | Imported(storage: map<string, Stored>, count: nat)

  /**
   * `importarDatos` with its reader callback. `fileName` is the chosen file's name (if
   * any), `contents` what `JSON.parse` made of its text (`None` when it throws),
   * `confirmed` the user's answer to `confirm`, and `now` the ISO timestamp of the moment.
   */
  function ImportarDatos(fileName: Option<string>, contents: Option<Json>, confirmed: bool,
                         now: string, storage: map<string, Stored>): (r: ImportOutcome)
    ensures fileName.None? ==> r.NoFile?
    ensures fileName.Some? && !AcceptsFileName(fileName.value) ==> r.NotJsonFile?
    ensures r.Imported? <==>
      fileName.Some? && AcceptsFileName(fileName.value) && contents.Some? && WellFormedBackup(contents.value) && confirmed
    ensures r.Imported? ==> r.count == |PagosOf(contents.value)|
    ensures r.Imported? ==> PagosKey in r.storage && r.storage[PagosKey] == Encoded(JArr(PagosOf(contents.value)))
    ensures r.Imported? && SavesOldPagos(storage) ==>
      AutoBackupPrefix + now in r.storage && r.storage[AutoBackupPrefix + now] == storage[PagosKey]
    ensures r.Imported? ==> forall k :: k in storage && k !in ImportWrites(storage, now) ==>
      k in r.storage && r.storage[k] == storage[k]
    ensures r.Imported? ==> UtmKey in r.storage
    ensures r.Imported? && "valoresUTM" !in contents.value.fields["datos"].fields ==>
      r.storage[UtmKey] == Raw("undefined")
    ensures r.Imported? && "valoresUTM" in contents.value.fields["datos"].fields ==>
      r.storage[UtmKey] == Encoded(contents.value.fields["datos"].fields["valoresUTM"])
    ensures r.Imported? ==> r.storage.Keys == storage.Keys + ImportWrites(storage, now)
  {
    if fileName.None? then NoFile
    else if !AcceptsFileName(fileName.value) then NotJsonFile
    else if contents.None? then Unreadable
    else if !ValidarBackup(contents.value) then InvalidBackup
    else if !confirmed then Declined
    else
      var datos := contents.value.fields["datos"];
      var pagos := PagosOf(contents.value);
      var saved :=
        if SavesOldPagos(storage)
        then storage[AutoBackupPrefix + now := storage[PagosKey]]
        else storage;
      var utm := if "valoresUTM" in datos.fields then Encoded(datos.fields["valoresUTM"]) else Raw("undefined");
      Imported(saved[PagosKey := Encoded(JArr(pagos))][UtmKey := utm], |pagos|)
  }

  // ---------------------------------------------------------------------------
  // limpiarBackupsAutomaticos

  /** How many automatic backups survive the pruning. */
  const KeepAutoBackups: nat := 5

  predicate IsAutoBackupKey(k: string) {
    |AutoBackupPrefix| <= |k| && k[..|AutoBackupPrefix|] == AutoBackupPrefix
  }

  function AutoBackupKeys(storage: map<string, Stored>): set<string> {
    set k | k in storage && IsAutoBackupKey(k)
  }

  /** `claves.filter(clave => clave.startsWith('pension_backup_auto_'))`. */
  function FilterAutoBackup(keys: seq<string>): (r: seq<string>)
    requires Distinct(keys)
    ensures Distinct(r)
    ensures forall k :: k in r <==> k in keys && IsAutoBackupKey(k)
    decreases |keys|
  {
    if |keys| == 0 then []
    else
      var rest := FilterAutoBackup(keys[1..]);
      if IsAutoBackupKey(keys[0]) then
        assert keys[0] !in keys[1..];
        [keys[0]] + rest
      else rest
  }

  /** The first `d` elements of a sorted key list: the ones the pruning removes. */
  function Doomed(sorted: seq<string>, d: int): set<string> {
    set j | 0 <= j < d && j < |sorted| :: sorted[j]
  }

  /**
   * `limpiarBackupsAutomaticos`. `keys` is `Object.keys(localStorage)`: every key of
   * `storage` once, in whatever order the browser lists them.
   */
  function PruneAutoBackups(storage: map<string, Stored>, keys: seq<string>): (r: map<string, Stored>)
    requires Distinct(keys) && forall k :: k in keys <==> k in storage
    ensures forall k :: k in storage && !IsAutoBackupKey(k) ==> k in r && r[k] == storage[k]
    ensures forall k :: k in r ==> k in storage && r[k] == storage[k]
    ensures |AutoBackupKeys(storage)| <= KeepAutoBackups ==> r == storage
  {
    var auto := FilterAutoBackup(keys);
    AutoKeysCard(storage, keys);
    if |auto| > KeepAutoBackups then
      var sorted := Sort(auto);
      storage - Doomed(sorted, |sorted| - KeepAutoBackups)
    else storage
  }

  lemma AutoKeysCard(storage: map<string, Stored>, keys: seq<string>)
    requires Distinct(keys) && forall k :: k in keys <==> k in storage
    ensures |FilterAutoBackup(keys)| == |AutoBackupKeys(storage)|
  {
    var auto := FilterAutoBackup(keys);
    DistinctCard(auto);
    assert Elements(auto) == AutoBackupKeys(storage);
  }

  /** The sorted automatic-backup keys hold exactly the automatic-backup keys of the storage. */
  lemma SortedAutoKeys(storage: map<string, Stored>, keys: seq<string>, sorted: seq<string>)
    requires Distinct(keys) && forall k :: k in keys <==> k in storage
    requires sorted == Sort(FilterAutoBackup(keys))
    ensures StrictlySorted(sorted) && Distinct(sorted)
    ensures |sorted| == |AutoBackupKeys(storage)|
    ensures forall k :: k in sorted <==> k in AutoBackupKeys(storage)
  {
    AutoKeysCard(storage, keys);
    SortedIsDistinct(sorted);
  }

  /** Positions of a repeat-free sequence identify its elements. */
  lemma SamePositionIfEqual(s: seq<string>, i: int, j: int)
    requires Distinct(s) && 0 <= i < |s| && 0 <= j < |s| && s[i] == s[j]
    ensures i == j
  {
  }

  /** In a repeat-free list, position `i` is among the first `d` exactly when `i < d`. */
  lemma DoomedPosition(sorted: seq<string>, d: int, i: nat)
    requires Distinct(sorted) && i < |sorted|
    ensures sorted[i] in Doomed(sorted, d) <==> i < d
  {
    if sorted[i] in Doomed(sorted, d) {
      var j :| 0 <= j < d && j < |sorted| && sorted[j] == sorted[i];
      SamePositionIfEqual(sorted, i, j);
    }
  }

  /** Removing the first `d` sorted keys leaves exactly the keys from position `d` on. */
  lemma KeptAreSuffix(storage: map<string, Stored>, sorted: seq<string>, d: nat)
    requires Distinct(sorted) && forall k :: k in sorted <==> k in AutoBackupKeys(storage)
    requires d <= |sorted|
    ensures AutoBackupKeys(storage - Doomed(sorted, d)) == Elements(sorted[d..])
  {
    var kept := sorted[d..];
    forall x | x in AutoBackupKeys(storage - Doomed(sorted, d))
      ensures x in kept
    {
      assert x in sorted;
      var j :| 0 <= j < |sorted| && sorted[j] == x;
      DoomedPosition(sorted, d, j);
      assert kept[j - d] == x;
    }
    forall x | x in kept
      ensures x in AutoBackupKeys(storage - Doomed(sorted, d))
    {
      var t :| 0 <= t < |kept| && kept[t] == x;
      assert sorted[d + t] == x;
      assert x in AutoBackupKeys(storage);
      DoomedPosition(sorted, d, d + t);
    }
  }

  /**
   * Removing the first `d` keys of the sorted automatic-backup keys leaves the other
   * `|sorted| - d`, and each removed key sorts before each remaining one.
   */
  lemma DropPrefixKeepsGreatest(storage: map<string, Stored>, sorted: seq<string>, d: nat)
    requires StrictlySorted(sorted) && Distinct(sorted)
    requires forall k :: k in sorted <==> k in AutoBackupKeys(storage)
    requires d <= |sorted|
    ensures |AutoBackupKeys(storage - Doomed(sorted, d))| == |sorted| - d
    ensures forall a, b :: a in Doomed(sorted, d) && b in AutoBackupKeys(storage - Doomed(sorted, d)) ==> Below(a, b)
  {
    KeptAreSuffix(storage, sorted, d);
    var kept := sorted[d..];
    assert Distinct(kept);
    DistinctCard(kept);
    forall a, b | a in Doomed(sorted, d) && b in AutoBackupKeys(storage - Doomed(sorted, d))
      ensures Below(a, b)
    {
      var i :| 0 <= i < d && i < |sorted| && sorted[i] == a;
      assert b in kept;
      var t :| 0 <= t < |kept| && kept[t] == b;
      assert sorted[d + t] == b;
    }
  }

  /** Every automatic backup `storage` has and `r` lacks sorts before every one `r` keeps. */
  ghost predicate OnlyOlderRemoved(storage: map<string, Stored>, r: map<string, Stored>) {
    forall a, b :: a in AutoBackupKeys(storage) && a !in r && b in AutoBackupKeys(r) ==> Below(a, b)
  }

  /**
   * With more than five automatic backups, exactly five survive, and every removed one
   * sorts before every surviving one: the five greatest keys are kept.
   */
  lemma PruneKeepsFiveGreatest(storage: map<string, Stored>, keys: seq<string>)
    requires Distinct(keys) && forall k :: k in keys <==> k in storage
    requires |AutoBackupKeys(storage)| > KeepAutoBackups
    ensures |AutoBackupKeys(PruneAutoBackups(storage, keys))| == KeepAutoBackups
    ensures OnlyOlderRemoved(storage, PruneAutoBackups(storage, keys))
  {
    var sorted := Sort(FilterAutoBackup(keys));
    SortedAutoKeys(storage, keys, sorted);
    var d := |sorted| - KeepAutoBackups;
    PruneDropsFirst(storage, keys, sorted);
    DropPrefixKeepsGreatest(storage, sorted, d);
    var r := PruneAutoBackups(storage, keys);
    assert r == storage - Doomed(sorted, d);
    assert |AutoBackupKeys(r)| == KeepAutoBackups;
    forall a, b | a in AutoBackupKeys(storage) && a !in r && b in AutoBackupKeys(r)
      ensures Below(a, b)
    {
      assert a in Doomed(sorted, d);
    }
    assert OnlyOlderRemoved(storage, r);
  }

  /** The automatic-backup keys that sort after `k`. */
  function KeysAbove(storage: map<string, Stored>, k: string): set<string> {
    set x | x in AutoBackupKeys(storage) && Below(k, x)
  }

  /** In the sorted keys, the keys above position `i` are exactly those after it. */
  lemma KeysAboveIsSuffix(storage: map<string, Stored>, sorted: seq<string>, i: nat)
    requires StrictlySorted(sorted) && forall k :: k in sorted <==> k in AutoBackupKeys(storage)
    requires i < |sorted|
    ensures KeysAbove(storage, sorted[i]) == Elements(sorted[i + 1..])
  {
    var k := sorted[i];
    var above := sorted[i + 1..];
    forall x | x in KeysAbove(storage, k)
      ensures x in above
    {
      assert x in sorted;
      var j :| 0 <= j < |sorted| && sorted[j] == x;
      BelowAsymmetric(k, x);
      BelowIrreflexive(k);
      assert j > i;
      assert above[j - i - 1] == x;
    }
    forall x | x in above
      ensures x in KeysAbove(storage, k)
    {
      var t :| 0 <= t < |above| && above[t] == x;
      assert sorted[i + 1 + t] == x;
    }
  }

  /**
   * An automatic backup survives the pruning exactly when fewer than five automatic
   * backups sort after it.
   */
  lemma PruneSurvivalRule(storage: map<string, Stored>, keys: seq<string>, k: string)
    requires Distinct(keys) && forall k :: k in keys <==> k in storage
    requires k in AutoBackupKeys(storage)
    ensures k in PruneAutoBackups(storage, keys) <==> |KeysAbove(storage, k)| < KeepAutoBackups
  {
    var sorted := Sort(FilterAutoBackup(keys));
    SortedAutoKeys(storage, keys, sorted);
    assert k in sorted;
    var i :| 0 <= i < |sorted| && sorted[i] == k;
    KeysAboveIsSuffix(storage, sorted, i);
    assert Distinct(sorted[i + 1..]);
    DistinctCard(sorted[i + 1..]);
    SurvivesFromPosition(storage, keys, sorted, i);
  }

  /** Position `i` of the sorted automatic-backup keys survives exactly when it is among the last five. */
  lemma SurvivesFromPosition(storage: map<string, Stored>, keys: seq<string>, sorted: seq<string>, i: nat)
    requires Distinct(keys) && forall k :: k in keys <==> k in storage
    requires sorted == Sort(FilterAutoBackup(keys)) && i < |sorted|
    ensures sorted[i] in PruneAutoBackups(storage, keys) <==> |sorted| - 1 - i < KeepAutoBackups
  {
    SortedAutoKeys(storage, keys, sorted);
    assert sorted[i] in storage;
    if |sorted| > KeepAutoBackups {
      PruneDropsFirst(storage, keys, sorted);
      DoomedPosition(sorted, |sorted| - KeepAutoBackups, i);
    }
  }

  /** With more than five automatic backups, the pruning removes the first `|sorted| - 5` sorted keys. */
  lemma PruneDropsFirst(storage: map<string, Stored>, keys: seq<string>, sorted: seq<string>)
    requires Distinct(keys) && forall k :: k in keys <==> k in storage
    requires |AutoBackupKeys(storage)| > KeepAutoBackups
    requires sorted == Sort(FilterAutoBackup(keys))
    ensures PruneAutoBackups(storage, keys) == storage - Doomed(sorted, |sorted| - KeepAutoBackups)
  {
    AutoKeysCard(storage, keys);
  }

  // ---------------------------------------------------------------------------
  // obtenerEstadisticasBackup

  /**
   * Whether JavaScript's conversion of a parsed value to a primitive throws, as
   * `total + x` and `new Date(x)` do for it. A parsed object's own `toString` field
   * is data, not a function, so the conversion finds no callable `toString` and
   * throws a `TypeError`; an array is converted by joining its elements, so it throws
   * when an element does. Objects without such a field, and all other values, convert.
   */
  predicate ToPrimitiveThrows(j: Json)
    decreases j
  {
    match j
    case JObj(fields) => "toString" in fields
    case JArr(items) => exists i :: 0 <= i < |items| && ToPrimitiveThrows(items[i])
    case _ => false
  }

  /**
   * A payment on which `obtenerEstadisticasBackup` throws: its truthy `monto` is added
   * by the `reduce`, and its `fecha` goes through `new Date` in the sort's comparator
   * (two payments or more) or in `formatearFecha` (a single one).
   */
  predicate ThrowsInStats(pago: Json)
    requires !pago.JNull?
  {
    || (TruthyProp(pago, "monto") && ToPrimitiveThrows(Prop(pago, "monto").value))
    || (Prop(pago, "fecha").Some? && ToPrimitiveThrows(Prop(pago, "fecha").value))
  }

  /** No payment is `null` and none makes the statistics throw. */
  ghost predicate StatsReadable(pagos: seq<Json>) {
    forall i :: 0 <= i < |pagos| ==> !pagos[i].JNull? && !ThrowsInStats(pagos[i])
  }

  /**
   * A running total of JavaScript's `+`: a number, or — once a string, array or object
   * amount has been added — a concatenated string, whose text the model does not track.
   */
  datatype Total = Num(n: int) | Concatenated

  /** `totalPagos` and `montoTotal` of `obtenerEstadisticasBackup`. */
  datatype Stats = Stats(totalPagos: nat, montoTotal: Total)

  /** `pago.monto || 0` for a payment that is not `null`. */
  function MontoOrZero(pago: Json): Json
    requires !pago.JNull?
  {
    if TruthyProp(pago, "monto") then Prop(pago, "monto").value else JNum(0)
  }

  /**
   * `total + (pago.monto || 0)`: a truthy boolean adds 1, other non-numbers concatenate.
   * Amounts whose conversion throws never get here: `EstadisticasBackup` answers `null`
   * for them first.
   */
  function AddMonto(total: Total, pago: Json): Total
    requires !pago.JNull?
  {
    match total
    case Concatenated => Concatenated
    case Num(t) =>
      match MontoOrZero(pago)
      case JNum(m) => Num(t + m)
      case JBool(_) => Num(t + 1)
      case _ => Concatenated
  }

  ghost predicate NoNulls(pagos: seq<Json>) {
    forall i :: 0 <= i < |pagos| ==> !pagos[i].JNull?
  }

  /** `pagos.reduce((total, pago) => total + (pago.monto || 0), 0)`. */
  function SumMontos(pagos: seq<Json>): Total
    requires NoNulls(pagos)
    decreases |pagos|
  {
    if |pagos| == 0 then Num(0) else AddMonto(SumMontos(pagos[..|pagos| - 1]), pagos[|pagos| - 1])
  }

  /** The amount a payment contributes when it is a number or absent/falsy. */
  ghost predicate NumericMonto(p: Json) {
    !p.JNull? && (!TruthyProp(p, "monto") || Prop(p, "monto").value.JNum?)
  }

  /** The number a numeric-or-absent amount stands for: the number itself, or 0. */
  ghost function MontoValue(p: Json): int
    requires NumericMonto(p)
  {
    if TruthyProp(p, "monto") then Prop(p, "monto").value.n else 0
  }

  /** Every amount is a number or missing. */
  ghost predicate AllNumeric(pagos: seq<Json>) {
    forall i :: 0 <= i < |pagos| ==> NumericMonto(pagos[i])
  }

  /** Reference sum of the amounts, by recursion on the first payment (the `reduce` runs the other way). */
  ghost function MontoSum(pagos: seq<Json>): int
    requires AllNumeric(pagos)
    decreases |pagos|
  {
    if |pagos| == 0 then 0 else MontoValue(pagos[0]) + MontoSum(pagos[1..])
  }

  lemma {:induction false} MontoSumAppend(pagos: seq<Json>, p: Json)
    requires AllNumeric(pagos) && NumericMonto(p)
    ensures AllNumeric(pagos + [p])
    ensures MontoSum(pagos + [p]) == MontoSum(pagos) + MontoValue(p)
    decreases |pagos|
  {
    assert forall i :: 0 <= i < |pagos + [p]| ==> NumericMonto((pagos + [p])[i]);
    if |pagos| > 0 {
      assert (pagos + [p])[1..] == pagos[1..] + [p];
      MontoSumAppend(pagos[1..], p);
    }
  }

  /** When every amount is a number or missing, the fold is the plain sum, missing amounts counting 0. */
  lemma {:induction false} SumMontosIsSum(pagos: seq<Json>)
    requires NoNulls(pagos) && AllNumeric(pagos)
    ensures SumMontos(pagos) == Num(MontoSum(pagos))
    decreases |pagos|
  {
    if |pagos| > 0 {
      var init := pagos[..|pagos| - 1];
      var last := pagos[|pagos| - 1];
      SumMontosIsSum(init);
      MontoSumAppend(init, last);
      assert init + [last] == pagos;
    }
  }

  lemma SumMontosIsSumWhenNumeric(pagos: seq<Json>)
    requires NoNulls(pagos)
    ensures AllNumeric(pagos) ==> SumMontos(pagos) == Num(MontoSum(pagos))
  {
    if AllNumeric(pagos) {
      SumMontosIsSum(pagos);
    }
  }

  /**
   * `obtenerEstadisticasBackup` over `parsed`, what `JSON.parse` made of the stored
   * payments (`None` when it threw). Anything but a non-empty array of readable
   * payments gives `null`: an empty array by the `pagos.length === 0` test; other
   * values, `null` payments and payments whose amount or date cannot be converted by
   * the error the `catch` absorbs.
   */
  function EstadisticasBackup(parsed: Option<Json>): (r: Option<Stats>)
    ensures r.Some? <==> parsed.Some? && parsed.value.JArr? && |parsed.value.items| > 0 && StatsReadable(parsed.value.items)
    ensures r.Some? ==> r.value.totalPagos == |parsed.value.items|
    ensures r.Some? && AllNumeric(parsed.value.items) ==> r.value.montoTotal == Num(MontoSum(parsed.value.items))
  {
    match parsed
    case None => None
    case Some(pagos) =>
      if !pagos.JArr? || |pagos.items| == 0 then None
      else if exists i :: 0 <= i < |pagos.items| && pagos.items[i].JNull? then None
      else if exists i :: 0 <= i < |pagos.items| && ThrowsInStats(pagos.items[i]) then None
      else
        SumMontosIsSumWhenNumeric(pagos.items);
        Some(Stats(|pagos.items|, SumMontos(pagos.items)))
  }

  /**
   * A payment whose amount is an object with its own `toString` field passes
   * `validarBackup`, since an object is truthy, but makes the statistics `null`.
   */
  lemma ToStringAmountGivesNull()
    ensures var pago := JObj(map["id" := JNum(1), "fecha" := JStr("2025-01-01"),
                                 "monto" := JObj(map["toString" := JNum(0)])]);
      ValidarBackup(JObj(map["datos" := JObj(map["pagos" := JArr([pago])])]))
      && EstadisticasBackup(Some(JArr([pago]))).None?
  {
    var pago := JObj(map["id" := JNum(1), "fecha" := JStr("2025-01-01"),
                         "monto" := JObj(map["toString" := JNum(0)])]);
    assert ThrowsInStats(pago);
    assert AllPagosOk([pago]);
  }
}

=== FILE: lex_order.dfy ===
/**
 * The order `Array.prototype.sort()` uses when it is called without a comparator on
 * an array of strings: lexicographic comparison character by character, a proper
 * prefix sorting first. Also a functional insertion sort over that order.
 */
module LexOrder {

  /** `a` sorts strictly before `b`. */
  predicate Below(a: string, b: string)
    decreases |a|
  {
    if |a| == 0 then |b| > 0
    else if |b| == 0 then false
    else if a[0] != b[0] then a[0] < b[0]
    else Below(a[1..], b[1..])
  }

  lemma {:induction false} BelowIrreflexive(a: string)
    ensures !Below(a, a)
    decreases |a|
  {
    if |a| > 0 {
      BelowIrreflexive(a[1..]);
    }
  }

  lemma {:induction false} BelowTransitive(a: string, b: string, c: string)
    requires Below(a, b) && Below(b, c)
    ensures Below(a, c)
    decreases |a|
  {
    if |a| > 0 && a[0] == b[0] && b[0] == c[0] {
      BelowTransitive(a[1..], b[1..], c[1..]);
    }
  }

  /** Any two different strings are ordered one way or the other. */
  lemma {:induction false} BelowTotal(a: string, b: string)
    requires a != b
    ensures Below(a, b) || Below(b, a)
    decreases |a|
  {
    if |a| > 0 && |b| > 0 && a[0] == b[0] {
      assert a == a[..1] + a[1..] && b == b[..1] + b[1..];
      BelowTotal(a[1..], b[1..]);
    }
  }

  lemma BelowAsymmetric(a: string, b: string)
    requires Below(a, b)
    ensures !Below(b, a)
  {
    if Below(b, a) {
      BelowTransitive(a, b, a);
      BelowIrreflexive(a);
    }
  }

  ghost predicate StrictlySorted(s: seq<string>) {
    forall i, j :: 0 <= i < j < |s| ==> Below(s[i], s[j])
  }

  ghost predicate Distinct(s: seq<string>) {
    forall i, j :: 0 <= i < j < |s| ==> s[i] != s[j]
  }

  lemma SortedIsDistinct(s: seq<string>)
    requires StrictlySorted(s)
    ensures Distinct(s)
  {
    forall i, j | 0 <= i < j < |s|
      ensures s[i] != s[j]
    {
      BelowIrreflexive(s[i]);
    }
  }

  /** Inserts a string that is not yet present into a strictly sorted sequence. */
  function Insert(x: string, s: seq<string>): (r: seq<string>)
    requires StrictlySorted(s) && x !in s
    ensures StrictlySorted(r)
    ensures |r| == |s| + 1
    ensures forall y :: y in r <==> y == x || y in s
    decreases |s|
  {
    if |s| == 0 then [x]
    else if Below(x, s[0]) then
      BelowFirstIsBelowAll(x, s);
      [x] + s
    else
      BelowTotal(x, s[0]);
      var rest := Insert(x, s[1..]);
      FirstBelowRest(s, x, rest);
      [s[0]] + rest
  }

  lemma BelowFirstIsBelowAll(x: string, s: seq<string>)
    requires StrictlySorted(s) && |s| > 0 && Below(x, s[0])
    ensures forall j :: 0 <= j < |s| ==> Below(x, s[j])
  {
    forall j | 0 < j < |s|
      ensures Below(x, s[j])
    {
      BelowTransitive(x, s[0], s[j]);
    }
  }

  lemma FirstBelowRest(s: seq<string>, x: string, rest: seq<string>)
    requires StrictlySorted(s) && |s| > 0 && Below(s[0], x)
    requires StrictlySorted(rest)
    requires forall y :: y in rest <==> y == x || y in s[1..]
    ensures StrictlySorted([s[0]] + rest)
  {
    forall k | 0 <= k < |rest|
      ensures Below(s[0], rest[k])
    {
      if rest[k] != x {
        assert rest[k] in s[1..];
        var j :| 0 <= j < |s[1..]| && s[1..][j] == rest[k];
        assert s[j + 1] == rest[k];
      }
    }
  }

  /** Sorts a sequence of distinct strings into strictly ascending order. */
  function Sort(s: seq<string>): (r: seq<string>)
    requires Distinct(s)
    ensures StrictlySorted(r)
    ensures |r| == |s|
    ensures forall y :: y in r <==> y in s
    decreases |s|
  {
    if |s| == 0 then []
    else
      var init := s[..|s| - 1];
      assert forall y :: y in init ==> y in s;
      assert s[|s| - 1] !in init;
      Insert(s[|s| - 1], Sort(init))
  }

  /** The set of strings a sequence holds. */
  function Elements(s: seq<string>): set<string> {
    set x | x in s
  }

  /** A sequence without repeats has as many distinct elements as it has positions. */
  lemma {:induction false} DistinctCard(s: seq<string>)
    requires Distinct(s)
    ensures |Elements(s)| == |s|
    decreases |s|
  {
    if |s| > 0 {
      var init := s[..|s| - 1];
      DistinctCard(init);
      assert Elements(s) == Elements(init) + {s[|s| - 1]};
      assert s[|s| - 1] !in Elements(init);
    }
  }
}

=== FILE: month_keys.dfy ===
/**
 * Month keys of the form `YYYY-MM`: the formatter `formatearFechaParaMes` of
 * utm-api.js, JavaScript's `String.prototype.split` on a one-character separator,
 * and the reading of a key back into a year and a 0-based month that app.js
 * performs in `formatearMes`.
 */
module MonthKeys {
  import opened Wrappers

  /** A month as `Date.prototype.getMonth()` returns it: 0 for January, 11 for December. */
  type MonthIndex = m: int | 0 <= m < 12

  predicate IsDigit(c: char) {
    '0' <= c <= '9'
  }

  predicate AllDigits(s: string) {
    forall i :: 0 <= i < |s| ==> IsDigit(s[i])
  }

  function DigitChar(d: int): (c: char)
    requires 0 <= d < 10
    ensures IsDigit(c) && c as int - '0' as int == d
  {
    ('0' as int + d) as char
  }

  function DigitValue(c: char): int
    requires IsDigit(c)
  {
    c as int - '0' as int
  }

  /** Decimal rendering of a natural number, as `Number.prototype.toString()` writes it. */
  function NatToString(n: nat): (s: string)
    ensures |s| > 0 && AllDigits(s)
    decreases n
  {
    if n < 10 then [DigitChar(n)] else NatToString(n / 10) + [DigitChar(n % 10)]
  }

  /** Decimal rendering of an integer: a minus sign before negative numbers. */
  function IntToString(n: int): string {
    if n < 0 then "-" + NatToString(-n) else NatToString(n)
  }

  /** The value of a string of decimal digits (the empty string reads as 0). */
  function ParseDigits(s: string): nat
    requires AllDigits(s)
    decreases |s|
  {
    if |s| == 0 then 0 else ParseDigits(s[..|s| - 1]) * 10 + DigitValue(s[|s| - 1])
  }

  /** Reading a rendered natural number gives the number back. */
  lemma {:induction false} ParseNatToString(n: nat)
    ensures ParseDigits(NatToString(n)) == n
    decreases n
  {
    if n >= 10 {
      var s := NatToString(n);
      assert s[..|s| - 1] == NatToString(n / 10);
      ParseNatToString(n / 10);
    }
  }

  lemma NatToStringInjective(a: nat, b: nat)
    ensures NatToString(a) == NatToString(b) <==> a == b
  {
    if NatToString(a) == NatToString(b) {
      ParseNatToString(a);
      ParseNatToString(b);
    }
  }

  /** `padStart(2, '0')`: left-pads with zeros up to two characters. */
  function PadTwo(s: string): string {
    if |s| == 0 then "00" else if |s| == 1 then "0" + s else s
  }

  /**
   * `formatearFechaParaMes`: the key of a date whose calendar year is `year` and
   * whose 0-based month is `month` — the year in decimal, a dash, and the 1-based
   * month padded to exactly two digits.
   */
  function MonthKey(year: int, month: MonthIndex): string {
    IntToString(year) + "-" + PadTwo(NatToString(month + 1))
  }

  /** A key is the rendered year, a dash, and two digits that read as the 1-based month. */
  lemma MonthKeyShape(year: int, month: MonthIndex)
    ensures var k := MonthKey(year, month);
      && |k| == |IntToString(year)| + 3
      && k[..|k| - 3] == IntToString(year) && k[|k| - 3] == '-'
      && AllDigits(k[|k| - 2..]) && ParseDigits(k[|k| - 2..]) == month + 1
  {
    var k := MonthKey(year, month);
    var mm := PadTwo(NatToString(month + 1));
    PaddedMonth(month + 1);
    assert k[|k| - 2..] == mm;
  }

  /** A 1-based month number pads to two digits that read back as the number. */
  lemma PaddedMonth(n: int)
    requires 1 <= n <= 12
    ensures |PadTwo(NatToString(n))| == 2
    ensures AllDigits(PadTwo(NatToString(n))) && ParseDigits(PadTwo(NatToString(n))) == n
  {
    var mm := PadTwo(NatToString(n));
    if n < 10 {
      assert NatToString(n) == [DigitChar(n)];
      assert mm == ['0', DigitChar(n)];
      assert mm[..1] == ['0'];
      assert ParseDigits(mm[..1]) == 0;
    } else {
      assert NatToString(n / 10) == [DigitChar(1)];
      assert NatToString(n) == [DigitChar(1), DigitChar(n - 10)];
      assert mm[..1] == [DigitChar(1)];
      assert ParseDigits(mm[..1]) == 1;
    }
  }

  /** Index of the first occurrence of `c` in `s`. */
  function FirstIndex(s: string, c: char): (i: nat)
    requires c in s
    ensures i < |s| && s[i] == c && c !in s[..i]
    decreases |s|
  {
    if s[0] == c then 0 else FirstIndex(s[1..], c) + 1
  }

  /** `s.split(sep)` for a one-character separator: the pieces between separators, in order. */
  function Split(s: string, sep: char): (parts: seq<string>)
    ensures |parts| >= 1
    ensures sep !in s ==> parts == [s]
    ensures sep in s ==> parts[0] == s[..FirstIndex(s, sep)]
    decreases |s|
  {
    if sep !in s then [s]
    else
      var i := FirstIndex(s, sep);
      [s[..i]] + Split(s[i + 1..], sep)
  }

  /** `key.split('-')[0]`: the part of a month key the source compares as its year. */
  function YearPart(key: string): string {
    Split(key, '-')[0]
  }

  /**
   * `const [ano, mes] = mesAno.split('-')` followed by `mes - 1`: the year and the
   * 0-based month a key names, when both pieces are non-empty digit strings.
   */
  function ReadMonthKey(key: string): (r: Option<(nat, int)>)
  {
    var parts := Split(key, '-');
    if |parts| >= 2 && |parts[0]| > 0 && AllDigits(parts[0]) && |parts[1]| > 0 && AllDigits(parts[1])
    then Some((ParseDigits(parts[0]), ParseDigits(parts[1]) - 1))
    else None
  }

  lemma NoDashInDigits(s: string)
    requires AllDigits(s)
    ensures '-' !in s
  {
    assert forall i :: 0 <= i < |s| ==> s[i] != '-';
  }

  /** A formatted key splits into exactly the rendered year and the two month digits. */
  lemma SplitMonthKey(year: nat, month: MonthIndex)
    ensures Split(MonthKey(year, month), '-') == [NatToString(year), PadTwo(NatToString(month + 1))]
  {
    var y := NatToString(year);
    var mm := PadTwo(NatToString(month + 1));
    var k := MonthKey(year, month);
    assert k == y + "-" + mm;
    NoDashInDigits(y);
    PaddedMonth(month + 1);
    NoDashInDigits(mm);
    assert k[|y|] == '-';
    assert '-' !in k[..|y|] by { assert k[..|y|] == y; }
    assert FirstIndex(k, '-') == |y|;
    assert k[|y| + 1..] == mm;
    assert Split(mm, '-') == [mm];
    assert Split(k, '-') == [k[..|y|]] + Split(mm, '-');
  }

  /** Reading back a key the formatter produced yields the year and month it was made from. */
  lemma MonthKeyRoundTrip(year: nat, month: MonthIndex)
    ensures ReadMonthKey(MonthKey(year, month)) == Some((year, month))
  {
    SplitMonthKey(year, month);
    MonthKeyShape(year, month);
    var k := MonthKey(year, month);
    assert k[|k| - 2..] == PadTwo(NatToString(month + 1));
    ParseNatToString(year);
  }

  /** The year part of a formatted key is the rendered year, so two keys share a year part exactly when their years agree. */
  lemma YearPartOfMonthKey(y1: nat, m1: MonthIndex, y2: nat, m2: MonthIndex)
    ensures YearPart(MonthKey(y1, m1)) == NatToString(y1)
    ensures YearPart(MonthKey(y1, m1)) == YearPart(MonthKey(y2, m2)) <==> y1 == y2
  {
    SplitMonthKey(y1, m1);
    SplitMonthKey(y2, m2);
    NatToStringInjective(y1, y2);
  }

  /** Different dates in different months never share a key. */
  lemma MonthKeyInjective(y1: nat, m1: MonthIndex, y2: nat, m2: MonthIndex)
    ensures MonthKey(y1, m1) == MonthKey(y2, m2) <==> y1 == y2 && m1 == m2
  {
    MonthKeyRoundTrip(y1, m1);
    MonthKeyRoundTrip(y2, m2);
  }
}

=== FILE: pension.dfy ===
/**
 * The pension arithmetic of app.js: the monthly amount owed for a UTM value, the
 * month-map lookup with its default, and the summary `calcularResumen` computes over
 * the recorded payments.
 */
module PensionApp {
  import opened Wrappers
  import opened LexOrder

  /** `CONFIG.FACTOR_UTM` = 3.51360, kept as the exact fraction 351360 / 100000. */
  const FactorNumerator: int := 351360
  const FactorDenominator: int := 100000

  /** `CONFIG.UTM_INICIAL`: the UTM used for a month without a usable stored value. */
  const InitialUtm: int := 68310

  /**
   * `calcularPensionMensual`: `Math.round(valorUTM * 3.5136)`, with the product taken
   * exactly and rounded half up — the greatest integer not above `utm * 3.5136 + 1/2`.
   */
  function MonthlyPension(utm: int): (r: int)
    ensures 2 * r * FactorDenominator <= 2 * utm * FactorNumerator + FactorDenominator
    ensures 2 * utm * FactorNumerator + FactorDenominator < 2 * (r + 1) * FactorDenominator
  {
    (2 * utm * FactorNumerator + FactorDenominator) / (2 * FactorDenominator)
  }

  /** A larger UTM never yields a smaller monthly amount. */
  lemma MonthlyPensionMonotone(a: int, b: int)
    requires a <= b
    ensures MonthlyPension(a) <= MonthlyPension(b)
  {
  }

  /** The default UTM of 68310 gives a monthly amount of 240014 (68310 × 3.5136 = 240014.016). */
  lemma MonthlyPensionOfInitialUtm()
    ensures MonthlyPension(InitialUtm) == 240014
  {
  }

  /**
   * `obtenerValorUTM`: `valoresUTM[mesAno] || CONFIG.UTM_INICIAL`. A missing month and
   * a stored 0 are both falsy and fall back to the default.
   */
  function UtmOfMonth(valoresUTM: map<string, int>, mesAno: string): (r: int)
    ensures r != 0
    ensures mesAno in valoresUTM && valoresUTM[mesAno] != 0 ==> r == valoresUTM[mesAno]
    ensures mesAno !in valoresUTM || valoresUTM[mesAno] == 0 ==> r == InitialUtm
  {
    if mesAno in valoresUTM && valoresUTM[mesAno] != 0 then valoresUTM[mesAno] else InitialUtm
  }

  /** A recorded payment: its date as a time value, its amount, and the `YYYY-MM` month it pays. */
  datatype Pago = Pago(id: string, fecha: int, monto: int, mesCorrespondiente: string)

  /** The result of `calcularResumen`; `ultimoPago` is `None` where the source shows '-'. */
  datatype Resumen = Resumen(
    totalPagos: nat,
    montoTotalPagado: int,
    montoTotalRequerido: int,
    diferencia: int,
    ultimoPago: Option<int>)

  /** `pagos.reduce((total, pago) => total + pago.monto, 0)`. */
  function TotalPaid(pagos: seq<Pago>): int
    decreases |pagos|
  {
    if |pagos| == 0 then 0 else TotalPaid(pagos[..|pagos| - 1]) + pagos[|pagos| - 1].monto
  }

  /** The paid total splits over any division of the payments into a front and a back part. */
  lemma {:induction false} TotalPaidAppend(a: seq<Pago>, b: seq<Pago>)
    ensures TotalPaid(a + b) == TotalPaid(a) + TotalPaid(b)
    decreases |b|
  {
    if |b| == 0 {
      assert a + b == a;
    } else {
      var b' := b[..|b| - 1];
      assert (a + b)[..|a + b| - 1] == a + b';
      assert (a + b)[|a + b| - 1] == b[|b| - 1];
      TotalPaidAppend(a, b');
    }
  }

  /** `pagos.map(p => p.mesCorrespondiente)`. */
  function Months(pagos: seq<Pago>): seq<string> {
    seq(|pagos|, i requires 0 <= i < |pagos| => pagos[i].mesCorrespondiente)
  }

  /** `[...new Set(s)]`: each element once, in order of first appearance. */
  function Dedup(s: seq<string>): (d: seq<string>)
    ensures forall x :: x in d <==> x in s
    ensures Distinct(d)
    decreases |s|
  {
    if |s| == 0 then []
    else
      var d := Dedup(s[..|s| - 1]);
      if s[|s| - 1] in d then d else d + [s[|s| - 1]]
  }

  /** The amount owed for one month: the monthly pension of that month's UTM. */
  function OwedFor(valoresUTM: map<string, int>, mes: string): int {
    MonthlyPension(UtmOfMonth(valoresUTM, mes))
  }

  /**
   * The `mesesConPagos.forEach` of `calcularResumen`: the amounts owed for the given
   * months, added in order.
   */
  function OwedOver(meses: seq<string>, valoresUTM: map<string, int>): int
    decreases |meses|
  {
    if |meses| == 0 then 0 else OwedFor(valoresUTM, meses[0]) + OwedOver(meses[1..], valoresUTM)
  }

  /** `montoTotalRequerido`: what is owed for each distinct month that has a payment. */
  function TotalRequired(pagos: seq<Pago>, valoresUTM: map<string, int>): int {
    OwedOver(Dedup(Months(pagos)), valoresUTM)
  }

  /** The latest payment date; the head of the descending sort by `fecha` in `calcularResumen`. */
  function LatestFecha(pagos: seq<Pago>): (f: int)
    requires |pagos| > 0
    ensures exists i :: 0 <= i < |pagos| && pagos[i].fecha == f
    ensures forall i :: 0 <= i < |pagos| ==> pagos[i].fecha <= f
    decreases |pagos|
  {
    if |pagos| == 1 then pagos[0].fecha
    else
      var rest := LatestFecha(pagos[1..]);
      if pagos[0].fecha >= rest then pagos[0].fecha else rest
  }

  /** `calcularResumen` over the payments `pagos` and the month map `valoresUTM`. */
  function CalcularResumen(pagos: seq<Pago>, valoresUTM: map<string, int>): (r: Resumen)
    ensures r.totalPagos == |pagos|
    ensures r.montoTotalPagado == TotalPaid(pagos)
    ensures r.montoTotalRequerido == TotalRequired(pagos, valoresUTM)
    ensures r.diferencia == r.montoTotalPagado - r.montoTotalRequerido
    ensures |pagos| == 0 ==> r.montoTotalPagado == 0 && r.montoTotalRequerido == 0 && r.ultimoPago.None?
    ensures |pagos| > 0 ==> (r.ultimoPago.Some?
      && (exists i :: 0 <= i < |pagos| && pagos[i].fecha == r.ultimoPago.value)
      && (forall i :: 0 <= i < |pagos| ==> pagos[i].fecha <= r.ultimoPago.value))
  {
    var paid := TotalPaid(pagos);
    var required := TotalRequired(pagos, valoresUTM);
    Resumen(|pagos|, paid, required, paid - required,
            if |pagos| > 0 then Some(LatestFecha(pagos)) else None)
  }

  lemma {:induction false} OwedOverAppend(meses: seq<string>, mes: string, valoresUTM: map<string, int>)
    ensures OwedOver(meses + [mes], valoresUTM) == OwedOver(meses, valoresUTM) + OwedFor(valoresUTM, mes)
    decreases |meses|
  {
    if |meses| > 0 {
      assert (meses + [mes])[1..] == meses[1..] + [mes];
      OwedOverAppend(meses[1..], mes, valoresUTM);
    }
  }

  lemma MonthsAppend(pagos: seq<Pago>, p: Pago)
    ensures Months(pagos + [p]) == Months(pagos) + [p.mesCorrespondiente]
  {
  }

  /** A further payment for a month that already has one leaves the required total unchanged. */
  lemma RequiredIgnoresRepeatedMonth(pagos: seq<Pago>, p: Pago, valoresUTM: map<string, int>)
    requires exists i :: 0 <= i < |pagos| && pagos[i].mesCorrespondiente == p.mesCorrespondiente
    ensures TotalRequired(pagos + [p], valoresUTM) == TotalRequired(pagos, valoresUTM)
  {
    MonthsAppend(pagos, p);
    var ms := Months(pagos) + [p.mesCorrespondiente];
    assert ms[..|ms| - 1] == Months(pagos);
    var i :| 0 <= i < |pagos| && pagos[i].mesCorrespondiente == p.mesCorrespondiente;
    assert Months(pagos)[i] == p.mesCorrespondiente;
  }

  /** A payment for a month without one adds exactly that month's monthly amount. */
  lemma RequiredAddsNewMonth(pagos: seq<Pago>, p: Pago, valoresUTM: map<string, int>)
    requires forall i :: 0 <= i < |pagos| ==> pagos[i].mesCorrespondiente != p.mesCorrespondiente
    ensures TotalRequired(pagos + [p], valoresUTM)
      == TotalRequired(pagos, valoresUTM) + MonthlyPension(UtmOfMonth(valoresUTM, p.mesCorrespondiente))
  {
    MonthsAppend(pagos, p);
    var ms := Months(pagos) + [p.mesCorrespondiente];
    assert ms[..|ms| - 1] == Months(pagos);
    assert p.mesCorrespondiente !in Months(pagos);
    OwedOverAppend(Dedup(Months(pagos)), p.mesCorrespondiente, valoresUTM);
  }

  /** Taking one month out of a sequence: the total is its amount plus the total of the rest. */
  lemma {:induction false} OwedOverRemove(meses: seq<string>, k: nat, valoresUTM: map<string, int>)
    requires k < |meses|
    ensures OwedOver(meses, valoresUTM) == OwedFor(valoresUTM, meses[k]) + OwedOver(meses[..k] + meses[k + 1..], valoresUTM)
    decreases k
  {
    if k == 0 {
      assert meses[..0] + meses[1..] == meses[1..];
    } else {
      var tail := meses[1..];
      OwedOverRemove(tail, k - 1, valoresUTM);
      assert meses[..k] + meses[k + 1..] == [meses[0]] + (tail[..k - 1] + tail[k..]);
    }
  }

  /** Removing position `k` from a repeat-free sequence removes exactly the element there. */
  lemma RemoveAt(e: seq<string>, k: nat)
    requires Distinct(e) && k < |e|
    ensures Distinct(e[..k] + e[k + 1..])
    ensures forall x :: x in e[..k] + e[k + 1..] <==> x in e && x != e[k]
  {
    var e' := e[..k] + e[k + 1..];
    assert forall j :: 0 <= j < |e'| ==> e'[j] == e[if j < k then j else j + 1];
    forall x | x in e && x != e[k]
      ensures x in e'
    {
      var j :| 0 <= j < |e| && e[j] == x;
      if j < k { assert e'[j] == x; } else { assert e'[j - 1] == x; }
    }
  }

  /** Two repeat-free month sequences with the same months owe the same total, whatever their order. */
  lemma {:induction false} OwedOverSameMonths(d: seq<string>, e: seq<string>, valoresUTM: map<string, int>)
    requires Distinct(d) && Distinct(e)
    requires forall x :: x in d <==> x in e
    ensures OwedOver(d, valoresUTM) == OwedOver(e, valoresUTM)
    decreases |d|
  {
    if |d| == 0 {
      DistinctCard(e);
      assert Elements(e) == {};
    } else {
      assert d[0] in e;
      var k :| 0 <= k < |e| && e[k] == d[0];
      OwedOverRemove(e, k, valoresUTM);
      RemoveAt(e, k);
      RemoveAt(d, 0);
      assert d[..0] + d[1..] == d[1..];
      var e' := e[..k] + e[k + 1..];
      forall x
        ensures x in d[1..] <==> x in e'
      {
        assert x in d[..0] + d[1..] <==> x in d && x != d[0];
        assert x in e' <==> x in e && x != e[k];
      }
      OwedOverSameMonths(d[1..], e', valoresUTM);
    }
  }

  /** The set of months that have at least one payment. */
  function MonthSet(pagos: seq<Pago>): set<string> {
    set p | p in pagos :: p.mesCorrespondiente
  }

  /**
   * The required total is a sum over the SET of months that have payments: any two
   * payment lists covering the same months owe the same, whatever their order,
   * amounts or repeats.
   */
  lemma RequiredDependsOnlyOnMonthSet(a: seq<Pago>, b: seq<Pago>, valoresUTM: map<string, int>)
    requires MonthSet(a) == MonthSet(b)
    ensures TotalRequired(a, valoresUTM) == TotalRequired(b, valoresUTM)
  {
    var da, db := Dedup(Months(a)), Dedup(Months(b));
    forall x
      ensures x in da <==> x in db
    {
      if x in Months(a) {
        var i :| 0 <= i < |Months(a)| && Months(a)[i] == x;
        assert a[i].mesCorrespondiente == x && a[i] in a;
        assert x in MonthSet(b);
        var q :| q in b && q.mesCorrespondiente == x;
        var j :| 0 <= j < |b| && b[j] == q;
        assert Months(b)[j] == x;
      }
      if x in Months(b) {
        var j :| 0 <= j < |Months(b)| && Months(b)[j] == x;
        assert b[j].mesCorrespondiente == x && b[j] in b;
        assert x in MonthSet(a);
        var q :| q in a && q.mesCorrespondiente == x;
        var i :| 0 <= i < |a| && a[i] == q;
        assert Months(a)[i] == x;
      }
    }
    OwedOverSameMonths(da, db, valoresUTM);
  }
}

=== FILE: utm_api.dfy ===
/**
 * The client of the UTM indicator endpoint (utm-api.js): the month-to-UTM selection
 * `obtenerUTMPorMes`, the projections of the returned series, and the merge of fetched
 * values into the month map. Every request to the endpoint is an input of type `Fetch`.
 */
module UtmApi {
  import opened Wrappers
  import opened MonthKeys

  /** The value `obtenerUTMPorMes` answers when anything fails. */
  const DefaultUtm: int := 68310

  /** How many leading series items `obtenerUTMUltimoMes` keeps. */
  const LastMonthCount: nat := 30

  /**
   * A date of the series as the browser sees it: `getFullYear()` and `getMonth()` in
   * the local time zone, and the time value `fechaOriginal` that the year step's sort
   * subtracts.
   */
  datatype Fecha = Fecha(year: int, month: MonthIndex, time: int)

  /** One item `{ valor, fecha }` of the endpoint's `serie`. */
  datatype Entry = Entry(valor: int, fecha: Fecha)

  /** A series item after projection: value, date, and its `YYYY-MM` key `mesAno`. */
  datatype MonthValue = MonthValue(valor: int, fecha: Fecha, mesAno: string)

  /**
   * What one request to `/utm` produced: the decoded `serie`, or a failure (the
   * network, a non-OK status, or a body that does not decode).
   */
  datatype Fetch = Fetched(serie: seq<Entry>) | FetchFailed

  function KeyOf(f: Fecha): string {
    MonthKey(f.year, f.month)
  }

  function Project(e: Entry): MonthValue {
    MonthValue(e.valor, e.fecha, KeyOf(e.fecha))
  }

  /** `serie.map(item => ...)`: one projected value per item, in the same order. */
  function ProjectAll(s: seq<Entry>): seq<MonthValue> {
    seq(|s|, i requires 0 <= i < |s| => Project(s[i]))
  }

  /** `obtenerUTMActual`: the head of the series; reading `serie[0]` of an empty series throws. */
  function CurrentUtm(fetch: Fetch): Option<Entry> {
    if fetch.Fetched? && |fetch.serie| > 0 then Some(fetch.serie[0]) else None
  }

  /** `obtenerTodosLosValoresUTM`: the whole series projected; a failed request propagates. */
  function AllValues(fetch: Fetch): (r: Option<seq<MonthValue>>)
    ensures r.Some? <==> fetch.Fetched?
    ensures r.Some? ==> |r.value| == |fetch.serie|
    ensures r.Some? ==> forall i :: 0 <= i < |r.value| ==>
      r.value[i].valor == fetch.serie[i].valor && r.value[i].fecha == fetch.serie[i].fecha
      && r.value[i].mesAno == KeyOf(fetch.serie[i].fecha)
  {
    match fetch
    case FetchFailed => None
    case Fetched(s) => Some(ProjectAll(s))
  }

  function Min(a: int, b: int): int {
    if a <= b then a else b
  }

  /** `obtenerUTMUltimoMes`: `serie.slice(0, 30)` projected. */
  function LastMonthValues(fetch: Fetch): (r: Option<seq<MonthValue>>)
    ensures r.Some? <==> fetch.Fetched?
    ensures r.Some? ==> |r.value| == Min(LastMonthCount, |fetch.serie|)
    ensures r.Some? ==> forall i :: 0 <= i < |r.value| ==>
      r.value[i].valor == fetch.serie[i].valor && r.value[i].fecha == fetch.serie[i].fecha
      && r.value[i].mesAno == KeyOf(fetch.serie[i].fecha)
  {
    match fetch
    case FetchFailed => None
    case Fetched(s) => Some(ProjectAll(if |s| <= LastMonthCount then s else s[..LastMonthCount]))
  }

  /** The recent-values projection is the first `min(30, n)` items of the full projection. */
  lemma LastMonthIsPrefixOfAll(fetch: Fetch)
    requires fetch.Fetched?
    ensures LastMonthValues(fetch).value == AllValues(fetch).value[..Min(LastMonthCount, |fetch.serie|)]
  {
  }

  /** `find(item => item.mesAno === mesAno)`: the position of the first item with that key. */
  function FindMonth(vals: seq<MonthValue>, key: string): (r: Option<nat>)
    ensures r.None? <==> forall i :: 0 <= i < |vals| ==> vals[i].mesAno != key
    ensures r.Some? ==> r.value < |vals| && vals[r.value].mesAno == key
    ensures r.Some? ==> forall j :: 0 <= j < r.value ==> vals[j].mesAno != key
    decreases |vals|
  {
    if |vals| == 0 then None
    else if vals[0].mesAno == key then Some(0)
    else
      match FindMonth(vals[1..], key)
      case None => None
      case Some(i) => Some(i + 1)
  }

  /** `filter(item => item.mesAno.split('-')[0] === ano)`: the items whose year part is `year`, in order. */
  function OfYear(vals: seq<MonthValue>, year: string): (r: seq<MonthValue>)
    ensures forall v :: v in r <==> v in vals && YearPart(v.mesAno) == year
    decreases |vals|
  {
    if |vals| == 0 then []
    else (if YearPart(vals[0].mesAno) == year then [vals[0]] else []) + OfYear(vals[1..], year)
  }

  lemma {:induction false} OfYearEmpty(vals: seq<MonthValue>, year: string)
    requires forall i :: 0 <= i < |vals| ==> YearPart(vals[i].mesAno) != year
    ensures OfYear(vals, year) == []
    decreases |vals|
  {
    if |vals| > 0 {
      OfYearEmpty(vals[1..], year);
    }
  }

  /** The filter works item by item: filtering a concatenation filters each part, in order. */
  lemma {:induction false} OfYearAppend(a: seq<MonthValue>, b: seq<MonthValue>, year: string)
    ensures OfYear(a + b, year) == OfYear(a, year) + OfYear(b, year)
    decreases |a|
  {
    if |a| == 0 {
      assert a + b == b;
    } else {
      assert (a + b)[0] == a[0];
      assert (a + b)[1..] == a[1..] + b;
      OfYearAppend(a[1..], b, year);
    }
  }

  /** `f` is the subsequence of `vals` at the strictly increasing positions `pos`. */
  ghost predicate AtPositions(vals: seq<MonthValue>, f: seq<MonthValue>, pos: seq<nat>) {
    && |pos| == |f|
    && (forall t :: 0 <= t < |pos| ==> pos[t] < |vals| && vals[pos[t]] == f[t])
    && (forall t, u :: 0 <= t < u < |pos| ==> pos[t] < pos[u])
  }

  /** Every position of `vals` holding an item of `year` is among `pos`. */
  ghost predicate CoversYear(vals: seq<MonthValue>, year: string, pos: seq<nat>) {
    forall j :: 0 <= j < |vals| && YearPart(vals[j].mesAno) == year ==> j in pos
  }

  /** Positions in the tail of `vals`, moved one place right, are positions in `vals`. */
  lemma ShiftPositions(vals: seq<MonthValue>, f: seq<MonthValue>, year: string, pos: seq<nat>) returns (shifted: seq<nat>)
    requires |vals| > 0 && AtPositions(vals[1..], f, pos) && CoversYear(vals[1..], year, pos)
    ensures AtPositions(vals, f, shifted)
    ensures forall t :: 0 <= t < |shifted| ==> shifted[t] > 0
    ensures forall j :: 1 <= j < |vals| && YearPart(vals[j].mesAno) == year ==> j in shifted
  {
    shifted := seq(|pos|, t requires 0 <= t < |pos| => pos[t] + 1);
    assert AtPositions(vals, f, shifted) by {
      forall t | 0 <= t < |shifted|
        ensures shifted[t] < |vals| && vals[shifted[t]] == f[t]
      {
        assert vals[shifted[t]] == vals[1..][pos[t]];
      }
    }
    forall j | 1 <= j < |vals| && YearPart(vals[j].mesAno) == year
      ensures j in shifted
    {
      assert vals[1..][j - 1] == vals[j];
      assert j - 1 in pos;
      var t :| 0 <= t < |pos| && pos[t] == j - 1;
      assert shifted[t] == j;
    }
  }

  /** Position 0 in front of positions past the head picks the head in front. */
  lemma PrependHead(vals: seq<MonthValue>, f: seq<MonthValue>, pos: seq<nat>)
    requires |vals| > 0 && AtPositions(vals, f, pos) && forall t :: 0 <= t < |pos| ==> pos[t] > 0
    ensures AtPositions(vals, [vals[0]] + f, [0] + pos)
  {
    var whole := [0] + pos;
    forall t | 0 < t < |whole|
      ensures whole[t] < |vals| && vals[whole[t]] == ([vals[0]] + f)[t]
    {
      assert whole[t] == pos[t - 1];
    }
  }

  /** The positions of the filtered tail, extended to the whole list. */
  lemma ConsPositions(vals: seq<MonthValue>, f: seq<MonthValue>, year: string, pos: seq<nat>) returns (whole: seq<nat>)
    requires |vals| > 0 && AtPositions(vals[1..], f, pos) && CoversYear(vals[1..], year, pos)
    ensures YearPart(vals[0].mesAno) == year ==> AtPositions(vals, [vals[0]] + f, whole)
    ensures YearPart(vals[0].mesAno) != year ==> AtPositions(vals, f, whole)
    ensures CoversYear(vals, year, whole)
  {
    var shifted := ShiftPositions(vals, f, year, pos);
    if YearPart(vals[0].mesAno) == year {
      whole := [0] + shifted;
      PrependHead(vals, f, shifted);
      forall j | 0 < j < |vals| && YearPart(vals[j].mesAno) == year
        ensures j in whole
      {
        assert j in shifted;
      }
    } else {
      whole := shifted;
    }
  }

  /**
   * The filter keeps series order and repeats: its result is the items of `vals` at
   * strictly increasing positions, and every position of the year is one of them.
   */
  lemma {:induction false} OfYearPositions(vals: seq<MonthValue>, year: string) returns (pos: seq<nat>)
    ensures AtPositions(vals, OfYear(vals, year), pos)
    ensures CoversYear(vals, year, pos)
    decreases |vals|
  {
    if |vals| == 0 {
      pos := [];
    } else {
      var tail := OfYear(vals[1..], year);
      var rest := OfYearPositions(vals[1..], year);
      pos := ConsPositions(vals, tail, year, rest);
      if YearPart(vals[0].mesAno) == year {
        assert OfYear(vals, year) == [vals[0]] + tail;
      } else {
        assert OfYear(vals, year) == tail;
      }
    }
  }

  /**
   * The latest item of a year, found through the filter, sits at a position `p` of
   * `vals` that no other item of that year postdates, and that every earlier item of
   * the year predates: the stable sort keeps the first of equally dated items first.
   */
  lemma LatestOfFilter(vals: seq<MonthValue>, year: string, k: nat) returns (p: nat)
    requires k < |vals| && YearPart(vals[k].mesAno) == year
    ensures |OfYear(vals, year)| > 0
    ensures p < |vals| && vals[p] == OfYear(vals, year)[LatestIndex(OfYear(vals, year))]
    ensures YearPart(vals[p].mesAno) == year
    ensures forall j :: 0 <= j < |vals| && YearPart(vals[j].mesAno) == year ==> vals[j].fecha.time <= vals[p].fecha.time
    ensures forall j :: 0 <= j < p && YearPart(vals[j].mesAno) == year ==> vals[j].fecha.time < vals[p].fecha.time
  {
    var ofYear := OfYear(vals, year);
    var pos := OfYearPositions(vals, year);
    assert k in pos;
    var li := LatestIndex(ofYear);
    p := pos[li];
    assert ofYear[li] in vals;
    forall j | 0 <= j < |vals| && YearPart(vals[j].mesAno) == year
      ensures vals[j].fecha.time <= vals[p].fecha.time
      ensures j < p ==> vals[j].fecha.time < vals[p].fecha.time
    {
      assert j in pos;
      var t :| 0 <= t < |pos| && pos[t] == j;
      assert vals[j] == ofYear[t];
      if j < p {
        assert t < li;
      }
    }
  }

  /**
   * The head of `sort((a, b) => b.fechaOriginal - a.fechaOriginal)`: since the sort is
   * stable, the first position holding the greatest time value.
   */
  function LatestIndex(vals: seq<MonthValue>): (i: nat)
    requires |vals| > 0
    ensures i < |vals|
    ensures forall j :: 0 <= j < |vals| ==> vals[j].fecha.time <= vals[i].fecha.time
    ensures forall j :: 0 <= j < i ==> vals[j].fecha.time < vals[i].fecha.time
    decreases |vals|
  {
    if |vals| == 1 then 0
    else
      var j := LatestIndex(vals[..|vals| - 1]);
      if vals[|vals| - 1].fecha.time > vals[j].fecha.time then |vals| - 1 else j
  }

  ghost predicate HasMonth(s: seq<Entry>, key: string) {
    exists i :: 0 <= i < |s| && KeyOf(s[i].fecha) == key
  }

  /** The entry's key has the same year part as `key`, as the `valoresDelAno` filter compares them. */
  predicate InYearOf(e: Entry, key: string) {
    YearPart(KeyOf(e.fecha)) == YearPart(key)
  }

  ghost predicate HasYear(s: seq<Entry>, key: string) {
    exists i :: 0 <= i < |s| && InYearOf(s[i], key)
  }

  /**
   * `obtenerUTMPorMes(mesAno)`. `all` is the request made through
   * `obtenerTodosLosValoresUTM`; `current` is the later request made through
   * `obtenerUTMActual`, which is only reached when no item shares the year.
   * What the answer is in each case is stated by the lemmas below.
   */
  function UtmForMonth(mesAno: string, all: Fetch, current: Fetch): int {
    match all
    case FetchFailed => DefaultUtm
    case Fetched(s) =>
      var vals := ProjectAll(s);
      match FindMonth(vals, mesAno)
      case Some(i) => vals[i].valor
      case None =>
        var ofYear := OfYear(vals, YearPart(mesAno));
        if |ofYear| > 0 then
          ofYear[LatestIndex(ofYear)].valor
        else
          match CurrentUtm(current)
          case Some(e) => e.valor
          case None => DefaultUtm
  }

  /** A failed request for the series answers the default. */
  lemma DefaultOnFailure(mesAno: string, current: Fetch)
    ensures UtmForMonth(mesAno, FetchFailed, current) == DefaultUtm
  {
  }

  lemma NoMonthMeansNotFound(mesAno: string, s: seq<Entry>)
    requires !HasMonth(s, mesAno)
    ensures FindMonth(ProjectAll(s), mesAno).None?
  {
    var vals := ProjectAll(s);
    forall i | 0 <= i < |vals|
      ensures vals[i].mesAno != mesAno
    {
      assert vals[i] == Project(s[i]);
    }
  }

  /** With an item for the requested month, the answer is the value of the first such item. */
  lemma ExactMatchWins(mesAno: string, s: seq<Entry>, current: Fetch)
    requires HasMonth(s, mesAno)
    ensures exists i :: (0 <= i < |s| && KeyOf(s[i].fecha) == mesAno
      && UtmForMonth(mesAno, Fetched(s), current) == s[i].valor
      && forall j :: 0 <= j < i ==> KeyOf(s[j].fecha) != mesAno)
  {
    var vals := ProjectAll(s);
    var k :| 0 <= k < |s| && KeyOf(s[k].fecha) == mesAno;
    assert vals[k].mesAno == mesAno;
    var i := FindMonth(vals, mesAno).value;
    assert UtmForMonth(mesAno, Fetched(s), current) == vals[i].valor;
    assert vals[i] == Project(s[i]);
    forall j | 0 <= j < i
      ensures KeyOf(s[j].fecha) != mesAno
    {
      assert vals[j] == Project(s[j]);
    }
  }

  /**
   * Without an item for the month but with items of the same year, the answer is the
   * value of a latest-dated item of that year — whether it lies before or after the
   * requested month.
   */
  lemma YearBranchValue(mesAno: string, s: seq<Entry>, current: Fetch)
    requires FindMonth(ProjectAll(s), mesAno).None?
    requires |OfYear(ProjectAll(s), YearPart(mesAno))| > 0
    ensures UtmForMonth(mesAno, Fetched(s), current)
      == OfYear(ProjectAll(s), YearPart(mesAno))[LatestIndex(OfYear(ProjectAll(s), YearPart(mesAno)))].valor
  {
  }

  /** Moves a fact about the projected values back to the series items they came from. */
  lemma LatestAmongEntries(s: seq<Entry>, mesAno: string, p: nat)
    requires p < |s|
    requires forall j :: 0 <= j < |s| && YearPart(ProjectAll(s)[j].mesAno) == YearPart(mesAno) ==>
      ProjectAll(s)[j].fecha.time <= ProjectAll(s)[p].fecha.time
    requires forall j :: 0 <= j < p && YearPart(ProjectAll(s)[j].mesAno) == YearPart(mesAno) ==>
      ProjectAll(s)[j].fecha.time < ProjectAll(s)[p].fecha.time
    ensures forall j :: 0 <= j < |s| && InYearOf(s[j], mesAno) ==> s[j].fecha.time <= s[p].fecha.time
    ensures forall j :: 0 <= j < p && InYearOf(s[j], mesAno) ==> s[j].fecha.time < s[p].fecha.time
  {
    var vals := ProjectAll(s);
    forall j | 0 <= j < |s| && InYearOf(s[j], mesAno)
      ensures s[j].fecha.time <= s[p].fecha.time
      ensures j < p ==> s[j].fecha.time < s[p].fecha.time
    {
      assert vals[j] == Project(s[j]);
      assert vals[p] == Project(s[p]);
    }
  }

  /** The series item behind the head of the year filter after the descending sort. */
  lemma LatestEntryOfYear(mesAno: string, s: seq<Entry>) returns (i: nat)
    requires HasYear(s, mesAno)
    ensures |OfYear(ProjectAll(s), YearPart(mesAno))| > 0
    ensures i < |s| && InYearOf(s[i], mesAno)
    ensures s[i].valor == OfYear(ProjectAll(s), YearPart(mesAno))[LatestIndex(OfYear(ProjectAll(s), YearPart(mesAno)))].valor
    ensures forall j :: 0 <= j < |s| && InYearOf(s[j], mesAno) ==> s[j].fecha.time <= s[i].fecha.time
    ensures forall j :: 0 <= j < i && InYearOf(s[j], mesAno) ==> s[j].fecha.time < s[i].fecha.time
  {
    var vals := ProjectAll(s);
    var k :| 0 <= k < |s| && InYearOf(s[k], mesAno);
    assert vals[k] == Project(s[k]);
    i := LatestOfFilter(vals, YearPart(mesAno), k);
    assert vals[i] == Project(s[i]);
    LatestAmongEntries(s, mesAno, i);
  }

  /** The item of the requested year whose value the year step answers. */
  lemma YearWinner(mesAno: string, s: seq<Entry>, current: Fetch) returns (i: nat)
    requires !HasMonth(s, mesAno) && HasYear(s, mesAno)
    ensures i < |s| && InYearOf(s[i], mesAno) && UtmForMonth(mesAno, Fetched(s), current) == s[i].valor
    ensures forall j :: 0 <= j < |s| && InYearOf(s[j], mesAno) ==> s[j].fecha.time <= s[i].fecha.time
    ensures forall j :: 0 <= j < i && InYearOf(s[j], mesAno) ==> s[j].fecha.time < s[i].fecha.time
  {
    i := LatestEntryOfYear(mesAno, s);
    NoMonthMeansNotFound(mesAno, s);
    YearBranchValue(mesAno, s, current);
  }

  lemma LatestOfYearWins(mesAno: string, s: seq<Entry>, current: Fetch)
    requires !HasMonth(s, mesAno) && HasYear(s, mesAno)
    ensures exists i :: (0 <= i < |s| && InYearOf(s[i], mesAno)
      && UtmForMonth(mesAno, Fetched(s), current) == s[i].valor
      && (forall j :: 0 <= j < |s| && InYearOf(s[j], mesAno) ==> s[j].fecha.time <= s[i].fecha.time)
      && forall j :: 0 <= j < i && InYearOf(s[j], mesAno) ==> s[j].fecha.time < s[i].fecha.time)
  {
    var i := YearWinner(mesAno, s, current);
  }

  /** With nothing of the requested year, the answer is the head of the second request, or the default. */
  lemma HeadWhenNoYear(mesAno: string, s: seq<Entry>, current: Fetch)
    requires !HasMonth(s, mesAno) && !HasYear(s, mesAno)
    ensures UtmForMonth(mesAno, Fetched(s), current)
      == if current.Fetched? && |current.serie| > 0 then current.serie[0].valor else DefaultUtm
  {
    var vals := ProjectAll(s);
    NoMonthMeansNotFound(mesAno, s);
    var ofYear := OfYear(vals, YearPart(mesAno));
    forall i | 0 <= i < |vals|
      ensures YearPart(vals[i].mesAno) != YearPart(mesAno)
    {
      assert vals[i] == Project(s[i]);
    }
    OfYearEmpty(vals, YearPart(mesAno));
  }

  /**
   * When both requests return the same series: an empty series answers the default,
   * and a non-empty one always answers the value of one of its items.
   */
  lemma SameSeriesAnswer(mesAno: string, s: seq<Entry>)
    ensures |s| == 0 ==> UtmForMonth(mesAno, Fetched(s), Fetched(s)) == DefaultUtm
    ensures |s| > 0 ==> exists i :: 0 <= i < |s| && UtmForMonth(mesAno, Fetched(s), Fetched(s)) == s[i].valor
  {
    if HasMonth(s, mesAno) {
      ExactMatchWins(mesAno, s, Fetched(s));
    } else if HasYear(s, mesAno) {
      LatestOfYearWins(mesAno, s, Fetched(s));
    } else {
      HeadWhenNoYear(mesAno, s, Fetched(s));
    }
  }

  /** A negative year renders with a leading minus sign, so `split('-')[0]` of its key is empty. */
  lemma NegativeYearPart(year: int, month: MonthIndex)
    requires year < 0
    ensures YearPart(MonthKey(year, month)) == ""
  {
    var k := MonthKey(year, month);
    assert k[0] == '-';
    assert FirstIndex(k, '-') == 0;
  }

  /**
   * For a well-formed request `MonthKey(y, m)`, an item counts as "of the requested
   * year" exactly when its calendar year is `y`.
   */
  lemma InYearMeansSameCalendarYear(e: Entry, y: nat, m: MonthIndex)
    ensures InYearOf(e, MonthKey(y, m)) <==> e.fecha.year == y
  {
    YearPartOfMonthKey(y, m, y, m);
    if e.fecha.year >= 0 {
      YearPartOfMonthKey(e.fecha.year, e.fecha.month, y, m);
    } else {
      NegativeYearPart(e.fecha.year, e.fecha.month);
    }
  }

  /**
   * The year fallback does not look for the nearest month: asking for March 2025 of a
   * series that only holds June 2025 answers June's value.
   */
  lemma LaterMonthOfSameYearAnswers(valor: int, time: int, current: Fetch)
    ensures UtmForMonth(MonthKey(2025, 2), Fetched([Entry(valor, Fecha(2025, 5, time))]), current) == valor
  {
    var s := [Entry(valor, Fecha(2025, 5, time))];
    MonthKeyInjective(2025, 5, 2025, 2);
    assert !HasMonth(s, MonthKey(2025, 2));
    InYearMeansSameCalendarYear(s[0], 2025, 2);
    LatestOfYearWins(MonthKey(2025, 2), s, current);
  }

  /**
   * The `valoresUTM.forEach` of `actualizarValoresUTMAutomaticamente`: each projected value is
   * written under its key, in series order. Unrolled from the end: all items but the
   * last, then the last one. What the map holds afterwards is stated by the three
   * lemmas that follow.
   */
  function MergeValues(store: map<string, int>, vals: seq<MonthValue>): map<string, int>
    decreases |vals|
  {
    if |vals| == 0 then store
    else MergeValues(store, vals[..|vals| - 1])[vals[|vals| - 1].mesAno := vals[|vals| - 1].valor]
  }

  /** The merged map holds the old keys and the keys of the values, and no others. */
  lemma {:induction false} MergeKeys(store: map<string, int>, vals: seq<MonthValue>)
    ensures MergeValues(store, vals).Keys == store.Keys + set v | v in vals :: v.mesAno
    decreases |vals|
  {
    if |vals| > 0 {
      var front := vals[..|vals| - 1];
      MergeKeys(store, front);
      assert vals == front + [vals[|vals| - 1]];
    }
  }

  /** A key none of the values carries keeps its old value. */
  lemma {:induction false} MergeUntouched(store: map<string, int>, vals: seq<MonthValue>, k: string)
    requires k in store && forall i :: 0 <= i < |vals| ==> vals[i].mesAno != k
    ensures k in MergeValues(store, vals) && MergeValues(store, vals)[k] == store[k]
    decreases |vals|
  {
    if |vals| > 0 {
      var front := vals[..|vals| - 1];
      assert forall i :: 0 <= i < |front| ==> front[i] == vals[i];
      MergeUntouched(store, front, k);
    }
  }

  /** The value at position `i`, when no later value shares its key, is what its key ends up holding. */
  lemma {:induction false} MergeLastWins(store: map<string, int>, vals: seq<MonthValue>, i: nat)
    requires i < |vals| && forall j :: i < j < |vals| ==> vals[j].mesAno != vals[i].mesAno
    ensures vals[i].mesAno in MergeValues(store, vals) && MergeValues(store, vals)[vals[i].mesAno] == vals[i].valor
    decreases |vals|
  {
    if i < |vals| - 1 {
      var front := vals[..|vals| - 1];
      assert front[i] == vals[i];
      assert forall j :: i < j < |front| ==> front[j] == vals[j];
      MergeLastWins(store, front, i);
    }
  }

  /** The month keys of the projected values are the keys of the series' dates. */
  lemma ProjectedKeys(s: seq<Entry>)
    ensures (set v | v in ProjectAll(s) :: v.mesAno) == set i | 0 <= i < |s| :: KeyOf(s[i].fecha)
  {
    var vals := ProjectAll(s);
    forall i | 0 <= i < |s|
      ensures KeyOf(s[i].fecha) in set v | v in vals :: v.mesAno
    {
      assert vals[i] in vals;
    }
  }

  /** The outcome of `actualizarValoresUTMAutomaticamente`: its boolean answer and the month map afterwards. */
  datatype UpdateOutcome = UpdateOutcome(ok: bool, valoresUTM: map<string, int>)

  /**
   * `actualizarValoresUTMAutomaticamente`. `appLoaded` says whether the application
   * object holding the month map is present; without it nothing is merged.
   */
  function AutoUpdate(fetch: Fetch, appLoaded: bool, store: map<string, int>): (r: UpdateOutcome)
    ensures r.ok <==> fetch.Fetched?
    ensures !r.ok || !appLoaded ==> r.valoresUTM == store
    ensures r.ok && appLoaded ==> r.valoresUTM.Keys == store.Keys + set i | 0 <= i < |fetch.serie| :: KeyOf(fetch.serie[i].fecha)
  {
    match fetch
    case FetchFailed => UpdateOutcome(false, store)
    case Fetched(s) =>
      if appLoaded then
        ProjectedKeys(s);
        MergeKeys(store, ProjectAll(s));
        UpdateOutcome(true, MergeValues(store, ProjectAll(s)))
      else UpdateOutcome(true, store)
  }

  /**
   * A successful update sets every month key of the series to the value of the last
   * item carrying that key, and leaves keys the series does not mention as they were.
   */
  lemma AutoUpdateLastWins(s: seq<Entry>, store: map<string, int>)
    ensures forall k :: k in store && (forall i :: 0 <= i < |s| ==> KeyOf(s[i].fecha) != k) ==>
      AutoUpdate(Fetched(s), true, store).valoresUTM[k] == store[k]
    ensures forall i :: 0 <= i < |s| && (forall j :: i < j < |s| ==> KeyOf(s[j].fecha) != KeyOf(s[i].fecha)) ==>
      AutoUpdate(Fetched(s), true, store).valoresUTM[KeyOf(s[i].fecha)] == s[i].valor
  {
    var vals := ProjectAll(s);
    var r := AutoUpdate(Fetched(s), true, store).valoresUTM;
    assert r == MergeValues(store, vals);
    forall k | k in store && (forall i :: 0 <= i < |s| ==> KeyOf(s[i].fecha) != k)
      ensures r[k] == store[k]
    {
      assert forall i :: 0 <= i < |vals| ==> vals[i].mesAno != k;
      MergeUntouched(store, vals, k);
    }
    forall i | 0 <= i < |s| && (forall j :: i < j < |s| ==> KeyOf(s[j].fecha) != KeyOf(s[i].fecha))
      ensures r[KeyOf(s[i].fecha)] == s[i].valor
    {
      assert forall j :: i < j < |vals| ==> vals[j].mesAno != vals[i].mesAno;
      MergeLastWins(store, vals, i);
    }
  }
}

=== FILE: wrappers.dfy ===
/** Optional values, standing for JavaScript's `null`/`undefined` results and for failed reads. */
module Wrappers {

  datatype Option<+T> = None | Some(value: T)
}
